=== FILE: README.md ===
# Payment service core, modelled in Dafny

A model of the logical core of a small Spring payment service that records
payment requests, charges them through Stripe, and keeps a ledger table of
payments. The model covers:

- the orchestrator `PaymentService`: gateway-name resolution, charging and
  saving, point and list lookups, the refund (the only state transition,
  SUCCESS to REFUNDED, plus a new ledger record with the negated amount), and
  the statistics fold;
- the Stripe adapter `StripeService`: how a request and the provider's answer
  become a `Payment`, the charge and refund requests it builds,
  `convertToCents`, `maskKey` and the stub token;
- the `Payment` record with its `@PrePersist`/`@PreUpdate` hooks and the
  unique `paymentId` column;
- the request constraints of `PaymentRequestDTO` and `RefundRequestDTO`;
- the name-keyed lookup of `PaymentGatewayFactory`.

Java references that may be null are `Option` values, and thrown exceptions
are `Err` results. `BigDecimal` amounts are `real`s, because its addition,
negation and multiplication by 100 are exact. The payment table is a `Store`:
the records in insertion order plus the next identity value. `Wellformed`
states what the table's constraints guarantee. Every NOT NULL column is set,
ids are distinct, and `paymentId` is unique. Each writing operation is a pure
function from the table to a `Reply`: the table after the call plus the
result. Because of `@Transactional`, a failed call rolls back and its reply
carries the table it was given. Lookups and statistics take the table and
return no table, so they cannot change it. `getGateway` likewise is a pure
function of the registry map and cannot change it.

The provider is not called. Each answer of `Charge.create`, `Charge.retrieve`
and `Refund.create` is an argument: paid / declined / exception, and
created / exception. The system clock is a `Clock` argument: epoch
milliseconds plus the offset of the system time zone. One reading serves a
whole operation.

Modules, one per file: `Wrappers` (wrappers.dfy), `Text` (text.dfy, the
`String` operations used), `Time`, `Money`, `Payments` (record, enums,
errors, hooks), `PaymentRequests`, `StripeService`, `PaymentGatewayFactory`,
`Store` (the table and repository queries), `Statistics`, `PaymentService`.

Behaviour the model makes explicit:

- `@Pattern` accepts null. A request whose currency is JSON `null` is
  therefore valid, but `StripeService.processPayment` throws a
  `NullPointerException` when it lower-cases the currency. The model returns
  `Err(NullReference)` there.
- Two provider exceptions in the same millisecond produce the same
  `"error_" + millis` id. The second save then violates the unique column and
  the call fails.
- `maskKey` of a key of exactly 8 characters shows all of the key, split by
  "...".
- `RefundRequestDTO` puts no bound on the amount, but the adapter receives it
  as a `Double`. An amount of magnitude at least 2^1024 - 2^970 becomes an
  infinity, and `BigDecimal.valueOf` then throws a `NumberFormatException`
  that the adapter's `catch (StripeException)` does not handle. The refund
  fails and rolls back; the model returns `Err(InvalidNumber)`.
- `@PrePersist` also stamps `createdAt`. So the saved record differs from the
  gateway's record in `id` and `createdAt`, and in nothing else.

## Model

| member | source | states |
|---|---|---|
| PaymentService.GetGatewayService | src/main/java/com/pagamentos/service/PaymentService.java:138-144 | Stripe is selected exactly when the name is non-null and equals STRIPE ignoring case; otherwise the gateway is unsupported |
| PaymentService.GatewayServiceIsStripeOnly | src/main/java/com/pagamentos/service/PaymentService.java:138-144 | a name resolves exactly when it upper-cases to STRIPE; PAGSEGURO and null are refused; the factory lookup with the application's registry resolves the same names |
| PaymentService.ProcessPayment | src/main/java/com/pagamentos/service/PaymentService.java:27-42 | on success exactly one record is appended and returned: the gateway's record with the new id and creation stamp, status SUCCESS or FAILED; it succeeds exactly when the gateway resolves, the adapter returns a record, and that record's paymentId is new; an unresolved gateway gives UnsupportedGateway, an adapter NullPointerException gives NullReference, and a taken paymentId gives ConstraintViolation; on failure the table is unchanged and stays well formed |
| PaymentService.PagSeguroRequestRefused | src/main/java/com/pagamentos/service/PaymentService.java:32 | a valid request naming PAGSEGURO fails as unsupported and writes nothing |
| PaymentService.ProviderErrorIsRecorded | src/main/java/com/pagamentos/service/StripeService.java:93-110 | a provider exception reaches the caller as a saved FAILED record with the local error id and the requested amount, not as an error |
| PaymentService.ProcessStatisticsEffect | src/main/java/com/pagamentos/service/PaymentService.java:27-42 | a saved charge adds one transaction, plus one success and its amount when paid, or one failure otherwise |
| PaymentService.AcceptedChargeScenario | src/main/java/com/pagamentos/service/PaymentService.java:27-42 | a valid 100.00 BRL credit-card request that the provider accepts sends 10000 cents and is saved as SUCCESS under the charge id with its amount unchanged |
| PaymentService.GetPaymentById | src/main/java/com/pagamentos/service/PaymentService.java:44-48 | returns a stored record with that id exactly when one exists, otherwise NotFound |
| PaymentService.GetPaymentByPaymentId | src/main/java/com/pagamentos/service/PaymentService.java:50-54 | returns the one stored record with that paymentId exactly when one exists, otherwise NotFound |
| PaymentService.GetPaymentsByCustomer | src/main/java/com/pagamentos/service/PaymentService.java:56-59 | a record is in the answer exactly when it is stored with that customer id |
| PaymentService.GetPaymentsByStatus | src/main/java/com/pagamentos/service/PaymentService.java:61-64 | succeeds exactly when the upper-cased text names a status, and then answers exactly the records in that status; otherwise InvalidArgument |
| PaymentService.CustomerQueryMultiplicity | src/main/java/com/pagamentos/service/PaymentService.java:56-59 | each record of the customer occurs in the answer as often as in the table, and no other record occurs |
| PaymentService.StatusQueryMultiplicity | src/main/java/com/pagamentos/service/PaymentService.java:61-64 | each record in the named status occurs in the answer as often as in the table, and no other record occurs |
| PaymentService.StatusQueryIgnoresCase | src/main/java/com/pagamentos/service/PaymentService.java:63 | any letter casing of a status name gives the records in that status |
| PaymentService.StatusQueryMatchesStatistics | src/main/java/com/pagamentos/service/PaymentService.java:116-127 | the SUCCESS and FAILED query answers have the sizes the statistics report |
| PaymentService.RefundPayment | src/main/java/com/pagamentos/service/PaymentService.java:66-110 | unknown paymentId gives NotFound, a non-SUCCESS original gives InvalidState, a SUCCESS original whose gateway does not resolve gives UnsupportedGateway, an amount too large for a double gives InvalidNumber, a null gateway refund gives GatewayFailure, and a taken refund id gives ConstraintViolation; every failure leaves the table unchanged; success happens exactly when none of these applies; then the original alone becomes REFUNDED with an update stamp, and one record is appended with id charge+"_refund", the negated amount, status REFUNDED, description "Reembolso: " + reason (or ""), the original's customer, email, currency, method and gateway, a creation stamp, and no update or processing stamp |
| PaymentService.SecondRefundFails | src/main/java/com/pagamentos/service/PaymentService.java:71-76 | refunding the same payment again after a successful refund fails with InvalidState and writes nothing |
| PaymentService.RefundStatisticsEffect | src/main/java/com/pagamentos/service/PaymentService.java:93-133 | a successful refund lowers the success count by one and the total by the original's amount, keeps the failure count, and adds one transaction |
| Statistics.GetPaymentStatistics | src/main/java/com/pagamentos/service/PaymentService.java:112-136 | total is the sum of the SUCCESS records' amounts; the success and failure counts are the sizes of those status queries and together at most the table size; transactions is the table size |
| Statistics.ComputeStatistics | src/main/java/com/pagamentos/service/PaymentService.java:113-133 | the three stream passes, as loops, compute the same statistics as the recursive definitions |
| Statistics.SumSuccessful | src/main/java/com/pagamentos/service/PaymentService.java:116-119 | the summing loop computes the SUCCESS total |
| Statistics.CountWithStatus | src/main/java/com/pagamentos/service/PaymentService.java:121-127 | the counting loop computes the number of records in a status |
| Statistics.CountsBounded | src/main/java/com/pagamentos/service/PaymentService.java:121-127 | the counts of two different statuses add up to at most the number of records |
| Statistics.CountStatusIsFilterLength | src/main/java/com/pagamentos/service/PaymentService.java:121-127 | counting a status equals the size of the records filtered by it |
| Statistics.SuccessTotalIsSumOfFilter | src/main/java/com/pagamentos/service/PaymentService.java:116-119 | the SUCCESS total equals the sum of the amounts of the SUCCESS-filtered records |
| Statistics.SuccessTotalUpdate | src/main/java/com/pagamentos/service/PaymentService.java:116-119 | replacing a record changes the total by the difference of the two records' contributions |
| Statistics.CountStatusUpdate | src/main/java/com/pagamentos/service/PaymentService.java:121-127 | replacing a record changes each status count by the difference of the two records' statuses |
| Statistics.RefundedRecordEffect | src/main/java/com/pagamentos/service/PaymentService.java:92-109 | marking a SUCCESS record REFUNDED in place and appending a REFUNDED record lowers the success count by one and the total by that record's amount, keeps the failure count, and adds one transaction |
| Store.Persist | src/main/java/com/pagamentos/model/Payment.java:17-22 | saving a new record runs onCreate, assigns the next id, and succeeds exactly when every NOT NULL column is set and the paymentId is new; the record is appended and the table stays well formed |
| Store.UpdateStatus | src/main/java/com/pagamentos/service/PaymentService.java:93-94 | writing back a stored record with a new status stamps updatedAt, changes no other record or field, and keeps ids and paymentIds, so the table stays well formed |
| Store.IndexOfUniquePaymentId | src/main/java/com/pagamentos/model/Payment.java:21 | in a well-formed table the paymentId lookup finds the one record carrying that id |
| Store.FindById | src/main/java/com/pagamentos/service/PaymentService.java:46 | finds a record exactly when one with that id is stored, and then a stored record with that id |
| Store.IndexOfPaymentId | src/main/java/com/pagamentos/repository/PaymentRepository.java:13 | finds a position exactly when some record carries that paymentId; the record there carries it and no earlier one does |
| Store.Where | src/main/java/com/pagamentos/repository/PaymentRepository.java:15-17 | the answer holds exactly the records the query condition accepts and is no longer than the table |
| Store.WhereMultiplicity | src/main/java/com/pagamentos/repository/PaymentRepository.java:15-17 | each accepted record occurs in the answer exactly as often as in the table, and nothing else occurs |
| Store.FilterByCustomer | src/main/java/com/pagamentos/repository/PaymentRepository.java:15 | a record is in the answer exactly when it is stored with that customer id |
| Store.FilterByStatus | src/main/java/com/pagamentos/repository/PaymentRepository.java:17 | a record is in the answer exactly when it is stored with that status |
| StripeService.ChargeParamsFor | src/main/java/com/pagamentos/service/StripeService.java:50-61 | the charge request carries the amount in cents, the lower-cased currency, the token, the description and the customer metadata; a null amount or currency throws |
| StripeService.ProcessPayment | src/main/java/com/pagamentos/service/StripeService.java:38-111 | succeeds exactly when amount, currency and method are non-null; copies customer, email, amount, currency, method and description and sets gateway STRIPE; paid gives SUCCESS with the charge id and processedAt from the charge time; declined gives FAILED without processedAt; an exception gives FAILED with id "error_"+millis and response "Stripe Error: "+message; never PENDING |
| StripeService.ProcessNeverThrowsForValidRequest | src/main/java/com/pagamentos/service/StripeService.java:93-110 | for a valid request with a currency, every provider answer yields a record with a paymentId and a status other than PENDING |
| StripeService.ErrorIdsDistinct | src/main/java/com/pagamentos/service/StripeService.java:97 | the local error id is "error_" followed by the `Long.toString` text of the clock's milliseconds (a minus sign before the epoch), which reads back as that number, so different milliseconds give different ids |
| StripeService.GetPaymentStatus | src/main/java/com/pagamentos/service/StripeService.java:113-130 | answers a record exactly when the provider answered; its status is SUCCESS exactly when paid and FAILED exactly when not |
| StripeService.RefundParamsFor | src/main/java/com/pagamentos/service/StripeService.java:137-142 | the refund request names the charge, the requested-by-customer reason, and the caller's reason or the default note |
| StripeService.RefundPayment | src/main/java/com/pagamentos/service/StripeService.java:132-158 | an amount whose double is infinite fails with a NumberFormatException the adapter does not catch; otherwise answers a REFUNDED record naming the refunded charge exactly when the provider created the refund, and nothing when it threw |
| StripeService.GeneratePaymentMethodToken | src/main/java/com/pagamentos/service/StripeService.java:160-166 | the token is "tok_" followed by a signed decimal number, with a minus sign exactly when the clock is before the epoch |
| StripeService.TokenEncodesClock | src/main/java/com/pagamentos/service/StripeService.java:163 | the token's number reads back as the clock's milliseconds, sign included; the request plays no part, and different milliseconds give different tokens |
| Text.IntToString | src/main/java/com/pagamentos/service/StripeService.java:97 | the rendering of a number is digits, after a minus sign exactly when the number is negative |
| Text.IntRoundTrip | src/main/java/com/pagamentos/service/StripeService.java:163 | parsing the rendering of any number, negative ones included, gives the number back |
| Text.IntToStringInjective | src/main/java/com/pagamentos/service/StripeService.java:97 | different numbers have different renderings |
| StripeService.MaskKey | src/main/java/com/pagamentos/service/StripeService.java:172-177 | "***" for a null key or one shorter than 8; otherwise 11 characters: the first four, "...", the last four |
| StripeService.MaskKeyHidesMiddle | src/main/java/com/pagamentos/service/StripeService.java:176 | keys agreeing in their first and last four characters have the same mask |
| Money.ConvertToCents | src/main/java/com/pagamentos/service/StripeService.java:168-170 | the cents have the amount's sign and lie within one cent of amount times 100, on the side toward zero |
| Money.TruncationIsUnique | src/main/java/com/pagamentos/service/StripeService.java:169 | only the truncation toward zero meets those bounds |
| Money.ConvertToCentsExact | src/main/java/com/pagamentos/service/StripeService.java:168-170 | an amount with at most two decimal places converts to exactly 100 times the amount |
| Money.ConvertToCentsMonotonic | src/main/java/com/pagamentos/service/StripeService.java:168-170 | a larger amount never gives fewer cents |
| Money.RoundsToInfinity | src/main/java/com/pagamentos/service/StripeService.java:139 | the amounts whose double value is infinite lie strictly beyond Double.MAX_VALUE in magnitude |
| Payments.ParseStatus | src/main/java/com/pagamentos/model/PaymentStatus.java:3-11 | answers the constant with exactly that name, or nothing when no constant has it |
| Payments.ParseStatusName | src/main/java/com/pagamentos/model/PaymentStatus.java:3-11 | every status is found again by its own name |
| Payments.NewPayment | src/main/java/com/pagamentos/model/Payment.java:33-34 | a fresh record has currency BRL and no id, paymentId, status, amount or timestamps |
| Payments.OnCreate | src/main/java/com/pagamentos/model/Payment.java:61-67 | sets createdAt to now; the status becomes PENDING if it was unset and keeps its value otherwise; no other field changes |
| Payments.OnUpdate | src/main/java/com/pagamentos/model/Payment.java:69-72 | sets updatedAt to now and changes nothing else |
| Payments.CreatedAtSetOnce | src/main/java/com/pagamentos/model/Payment.java:61-72 | an update keeps the creation stamp, and running onCreate again keeps the status |
| PaymentRequests.NewRequest | src/main/java/com/pagamentos/dto/PaymentRequestDTO.java:22-34 | a fresh request defaults to currency BRL and gateway STRIPE |
| PaymentRequests.DefaultsCompleteRequest | src/main/java/com/pagamentos/dto/PaymentRequestDTO.java:11-34 | a request with only the required fields gets the defaults, and is valid exactly when customer id, email and token are non-blank and the amount is at least 0.01 |
| PaymentRequests.CurrencyAllowList | src/main/java/com/pagamentos/dto/PaymentRequestDTO.java:22-23 | a valid currency is BRL, USD or EUR; "brl" and "BRL " are invalid |
| PaymentRequests.GatewayAllowList | src/main/java/com/pagamentos/dto/PaymentRequestDTO.java:33-34 | a valid gateway is STRIPE or PAGSEGURO, and PAGSEGURO passes validation |
| PaymentRequests.AmountMinimum | src/main/java/com/pagamentos/dto/PaymentRequestDTO.java:18-20 | under `Valid`, 0.01 is accepted, while 0.0099, a negative amount and a null amount are rejected |
| PaymentRequests.BlankAndOptionalFields | src/main/java/com/pagamentos/dto/PaymentRequestDTO.java:11-34 | under `Valid`, an all-blank customer id, e-mail or token and a null method are rejected; a null description, currency or gateway is accepted |
| PaymentRequests.RefundRequestConstraints | src/main/java/com/pagamentos/dto/RefundRequestDTO.java:11-17 | under `ValidRefund`, any amount (zero or negative too) and a null reason are accepted; a null amount and a null or all-blank paymentId are rejected |
| PaymentGatewayFactory.GetGateway | src/main/java/com/pagamentos/service/PaymentGatewayFactory.java:18-27 | answers the entry under lower-cased name + "Service" exactly when that key is present, otherwise unsupported, never null |
| PaymentGatewayFactory.GetGatewayIgnoresCase | src/main/java/com/pagamentos/service/PaymentGatewayFactory.java:19 | names equal ignoring case find the same service |
| PaymentGatewayFactory.SpringRegistryResolvesOnlyStripe | src/main/java/com/pagamentos/service/PaymentGatewayFactory.java:18-26 | with the application's bean map a name resolves, to Stripe, exactly when it equals STRIPE ignoring case; PAGSEGURO does not resolve |

## Left out

- Provider calls (`Charge.create`, `Charge.retrieve`, `Refund.create`, `toJson`, `Stripe.apiKey`): the network library is not modelled. Its answers are arguments, and `gatewayResponse` is an opaque string.
- StripeService.RefundParamsFor: does not carry the refund amount. `PaymentService` passes `amount.doubleValue()` and the adapter rebuilds a `BigDecimal` from that double, a floating-point round trip, so the cents sent are left abstract.
- Money.ConvertToCents: does not model the 64-bit overflow of `longValue()`; amounts are assumed to fit in a `long`.
- `Boolean` unboxing of a null `charge.getPaid()` is not modelled.
- Clock and time zone: `System.currentTimeMillis`, `LocalDateTime.now` and the epoch-to-local conversion come from a `Clock` argument. The zone offset is taken as fixed for the call, and local times have millisecond resolution. The epoch milliseconds are any integer, so the 64-bit range of `long` is not imposed; readings before the epoch are covered and render with a minus sign.
- PaymentService.GetGatewayService: case mapping covers ASCII only. Java's `equalsIgnoreCase` also equates U+017F and U+0131 with S and I, and `toLowerCase`/`toUpperCase` follow the default locale.
- PaymentService.GetPaymentsByStatus: upper-casing is ASCII only. Java's `toUpperCase` also maps some non-ASCII letters, such as U+00DF to "SS".
- PaymentGatewayFactory.GetGateway: the same ASCII-only case mapping applies. A null name (a `NullPointerException`) is not modelled.
- PaymentRequests.DefaultsCompleteRequest: `@Email` is not checked because its pattern is library-defined, so `Valid` accepts some e-mails the validator rejects.
- JPA mechanics: query derivation from method names (the queries are modelled by what they return), identity generation, column precision and scale rounding (`amount` at scale 2), and column length limits are not modelled. Persistence exceptions other than NOT NULL and UNIQUE violations are also left out.
- `PaymentRepository.findByGatewayAndStatus` and `existsByPaymentId` are unused by the services.
- Dirty checking: `@PreUpdate` is modelled only where a saved record changed, which is the refund's status update.
- Concurrency: the double-refund race between concurrent requests is not modelled. Each operation is one atomic step on the table.
- Web and configuration layer: `PaymentController`, `WebhookController` (signature verification happens inside the Stripe library, and event handling only logs), `StripeConfig`, `PaymentResponseDTO` and `init` are not modelled.
- StripeService.MaskKey: strings are sequences of code points, while Java's `length()` and `substring` count UTF-16 code units. A key with characters outside the Basic Multilingual Plane is therefore measured and cut differently, and Java may split a surrogate pair.
- Logging is not modelled. That includes the always-true key check in `processPayment`, which only emits a warning.

=== FILE: factory.dfy ===
/** `PaymentGatewayFactory`: finds a gateway service by name in the map of
    gateway beans, keyed by bean name. */
module PaymentGatewayFactory {
  import opened Wrappers
  import opened Text
  import opened Payments

  /** The gateway implementations of the application. */
  datatype Gateway = Stripe

  const ServiceSuffix: string := "Service"

  /** The bean name looked up for a gateway name. */
  function ServiceKey(name: string): string {
    ToLower(name) + ServiceSuffix
  }

  /** The map Spring injects: every `PaymentGatewayService` bean under its bean
      name, which for `StripeService` is "stripeService". */
  function SpringRegistry(): map<string, Gateway> {
    map["stripeService" := Stripe]
  }

  /** `getGateway`: the service registered under the lower-cased name plus
      "Service"; a missing entry is an unsupported gateway, never null. */
  function GetGateway<S>(registry: map<string, S>, name: string): (r: Result<S, Error>)
    ensures r.Ok? <==> ServiceKey(name) in registry
    ensures r.Ok? ==> r.value == registry[ServiceKey(name)]
    ensures r.Err? ==> r.error == UnsupportedGateway
  {
    var key := ServiceKey(name);
    if key in registry then Ok(registry[key]) else Err(UnsupportedGateway)
  }

  /** Names that differ only in letter case find the same service. */
  lemma GetGatewayIgnoresCase<S>(registry: map<string, S>, a: string, b: string)
    requires EqualsIgnoreCase(a, b)
    ensures GetGateway(registry, a) == GetGateway(registry, b)
  {
    EqualsIgnoreCaseIffSameLower(a, b);
  }

  /** With the application's registry, a name resolves exactly when it is
      STRIPE in some letter casing; PAGSEGURO does not resolve. */
  lemma SpringRegistryResolvesOnlyStripe(name: string)
    ensures GetGateway(SpringRegistry(), name).Ok? <==> EqualsIgnoreCase("STRIPE", name)
    ensures GetGateway(SpringRegistry(), name).Ok? ==> GetGateway(SpringRegistry(), name).value == Stripe
    ensures GetGateway(SpringRegistry(), "PAGSEGURO").Err?
  {
    assert ToLower("STRIPE") == "stripe";
    assert "stripe" + ServiceSuffix == "stripeService";
    AppendCancel(ToLower(name), "stripe", ServiceSuffix);
    EqualsIgnoreCaseIffSameLower("STRIPE", name);
    var p := ToLower("PAGSEGURO");
    assert |p + ServiceSuffix| != |"stripeService"|;
  }
}

=== FILE: money.dfy ===
/** Monetary amounts. `BigDecimal` arithmetic is exact, so amounts are reals. */
module Money {

  /** `BigDecimal.longValue()`: discards the fractional part, rounding toward
      zero. */
  function TruncateTowardZero(x: real): (r: int)
    ensures 0.0 <= x ==> 0 <= r && r as real <= x < r as real + 1.0
    ensures x < 0.0 ==> r <= 0 && x <= r as real && r as real < x + 1.0
  {
    if 0.0 <= x then x.Floor else -((-x).Floor)
  }

  /** `convertToCents`: the amount times one hundred, truncated toward zero.
      It has the sign of the amount and lies within one cent of it, closer to zero. */
  function ConvertToCents(amount: real): (cents: int)
    ensures 0.0 <= amount ==> 0 <= cents && cents as real <= amount * 100.0 < cents as real + 1.0
    ensures amount < 0.0 ==> cents <= 0 && amount * 100.0 <= cents as real < amount * 100.0 + 1.0
  {
    TruncateTowardZero(amount * 100.0)
  }

  /** The bounds above pin the result down: any integer meeting them is the
      truncation. */
  lemma TruncationIsUnique(x: real, r: int)
    requires 0.0 <= x ==> 0 <= r && r as real <= x < r as real + 1.0
    requires x < 0.0 ==> r <= 0 && x <= r as real && r as real < x + 1.0
    ensures r == TruncateTowardZero(x)
  {
  }

  /** An amount with at most two decimal places converts exactly. */
  lemma ConvertToCentsExact(amount: real, cents: int)
    requires amount * 100.0 == cents as real
    ensures ConvertToCents(amount) == cents
  {
    TruncationIsUnique(amount * 100.0, cents);
  }

  /** Conversion preserves order of amounts. */
  lemma ConvertToCentsMonotonic(a: real, b: real)
    requires a <= b
    ensures ConvertToCents(a) <= ConvertToCents(b)
  {
  }

  /** `Double.MAX_VALUE`, (2 - 2^-52) * 2^1023: fifty-three one bits followed
      by 971 zero bits. */
  const DoubleMax: int := 0xFFFFFFFFFFFFF800_0000000000000000_0000000000000000_0000000000000000_0000000000000000_0000000000000000_0000000000000000_0000000000000000_0000000000000000_0000000000000000_0000000000000000_0000000000000000_0000000000000000_0000000000000000_0000000000000000_0000000000000000

  /** The smallest magnitude that `BigDecimal.doubleValue()` rounds to an
      infinity: 2^1024 - 2^970, the midpoint between `Double.MAX_VALUE` and
      2^1024, which round-half-even sends up because the significand of
      `Double.MAX_VALUE` is odd. */
  const DoubleOverflowBound: int := 0xFFFFFFFFFFFFFC00_0000000000000000_0000000000000000_0000000000000000_0000000000000000_0000000000000000_0000000000000000_0000000000000000_0000000000000000_0000000000000000_0000000000000000_0000000000000000_0000000000000000_0000000000000000_0000000000000000_0000000000000000

  /** `BigDecimal.doubleValue()` gives an infinity for this amount. */
  predicate RoundsToInfinity(x: real)
    ensures RoundsToInfinity(x) ==> x > DoubleMax as real || x < -(DoubleMax as real)
  {
    x >= DoubleOverflowBound as real || x <= -(DoubleOverflowBound as real)
  }
}

=== FILE: payments.dfy ===
/** The persisted payment record, its enumerations and its JPA lifecycle hooks. */
module Payments {
  import opened Wrappers
  import opened Time

  datatype PaymentStatus = Pending | Processing | Success | Failed | Refunded | Cancelled | RequiresAction

  datatype PaymentMethod = CreditCard | DebitCard | Pix | Boleto | BankTransfer

  /** The failures the services raise. Each is a `RuntimeException` (or, for
      `NullReference`, a `NullPointerException`) in the services. */
  datatype Error =
    | NotFound               // no record with the requested id
    | InvalidArgument        // `PaymentStatus.valueOf` found no constant
    | InvalidState           // refund of a record whose status is not SUCCESS
    | UnsupportedGateway     // gateway name that resolves to no service
    | GatewayFailure         // the gateway refund returned null
    | NullReference          // a null field was dereferenced
    | ConstraintViolation    // a NOT NULL or UNIQUE column was violated on save
    | InvalidNumber          // text that denotes no number (`NumberFormatException`)

  /** The enum constant's `name()`. */
  function StatusName(s: PaymentStatus): string {
    match s
    case Pending => "PENDING"
    case Processing => "PROCESSING"
    case Success => "SUCCESS"
    case Failed => "FAILED"
    case Refunded => "REFUNDED"
    case Cancelled => "CANCELLED"
    case RequiresAction => "REQUIRES_ACTION"
  }

  /** `PaymentStatus.valueOf(name)`: the constant with exactly that name, or
      nothing (where Java throws). */
  function ParseStatus(name: string): (r: Option<PaymentStatus>)
    ensures r.Some? ==> StatusName(r.value) == name
    ensures r.None? ==> forall s: PaymentStatus :: StatusName(s) != name
  {
    if name == "PENDING" then Some(Pending)
    else if name == "PROCESSING" then Some(Processing)
    else if name == "SUCCESS" then Some(Success)
    else if name == "FAILED" then Some(Failed)
    else if name == "REFUNDED" then Some(Refunded)
    else if name == "CANCELLED" then Some(Cancelled)
    else if name == "REQUIRES_ACTION" then Some(RequiresAction)
    else None
  }

  /** Every constant is found again by its own name. */
  lemma ParseStatusName(s: PaymentStatus)
    ensures ParseStatus(StatusName(s)) == Some(s)
  {
  }

  /** The enum constant's `toString()`, which the record stores as text. */
  function MethodName(m: PaymentMethod): string {
    match m
    case CreditCard => "CREDIT_CARD"
    case DebitCard => "DEBIT_CARD"
    case Pix => "PIX"
    case Boleto => "BOLETO"
    case BankTransfer => "BANK_TRANSFER"
  }

  /** A `Payment` entity; `None` is a null field. */
  datatype Payment = Payment(
    id: Option<nat>,
    paymentId: Option<string>,
    customerId: Option<string>,
    customerEmail: Option<string>,
    amount: Option<real>,
    currency: Option<string>,
    paymentMethod: Option<string>,
    status: Option<PaymentStatus>,
    gateway: Option<string>,
    description: Option<string>,
    gatewayResponse: Option<string>,
    createdAt: Option<DateTime>,
    updatedAt: Option<DateTime>,
    processedAt: Option<DateTime>)

  /** `new Payment()`: every field null except the currency, which starts as "BRL". */
  function NewPayment(): (p: Payment)
    ensures p.currency == Some("BRL")
    ensures p.id.None? && p.paymentId.None? && p.status.None? && p.amount.None?
    ensures p.createdAt.None? && p.updatedAt.None? && p.processedAt.None?
  {
    Payment(None, None, None, None, None, Some("BRL"), None, None, None, None, None, None, None, None)
  }

  /** `@PrePersist onCreate`: stamps the creation time and defaults a null
      status to PENDING. A preset status survives, and nothing else changes. */
  function OnCreate(p: Payment, now: DateTime): (q: Payment)
    ensures q.createdAt == Some(now)
    ensures q.status.Some?
    ensures p.status.None? ==> q.status == Some(Pending)
    ensures p.status.Some? ==> q.status == p.status
    ensures q.(createdAt := p.createdAt, status := p.status) == p
  {
    p.(createdAt := Some(now), status := Some(p.status.GetOr(Pending)))
  }

  /** `@PreUpdate onUpdate`: stamps the update time; every other field,
      `createdAt` included, is kept. */
  function OnUpdate(p: Payment, now: DateTime): (q: Payment)
    ensures q.updatedAt == Some(now)
    ensures q.(updatedAt := p.updatedAt) == p
  {
    p.(updatedAt := Some(now))
  }

  /** The creation stamp is set once: a later update leaves it alone, and a
      record created with a status keeps that status through `onCreate`. */
  lemma CreatedAtSetOnce(p: Payment, t1: DateTime, t2: DateTime)
    ensures OnUpdate(OnCreate(p, t1), t2).createdAt == Some(t1)
    ensures OnCreate(OnCreate(p, t1), t2).status == OnCreate(p, t1).status
  {
  }

  /** The columns declared `nullable = false` all hold a value. */
  predicate Persistable(p: Payment) {
    && p.paymentId.Some?
    && p.customerId.Some?
    && p.customerEmail.Some?
    && p.amount.Some?
    && p.currency.Some?
    && p.paymentMethod.Some?
    && p.status.Some?
    && p.gateway.Some?
    && p.createdAt.Some?
  }
}

=== FILE: requests.dfy ===
/** The request bodies the controller validates before calling the services. */
module PaymentRequests {
  import opened Wrappers
  import opened Text
  import opened Payments

  /** `PaymentRequestDTO`; `None` is a null (or JSON null) field. */
  datatype PaymentRequest = PaymentRequest(
    customerId: Option<string>,
    customerEmail: Option<string>,
    amount: Option<real>,
    currency: Option<string>,
    paymentMethod: Option<PaymentMethod>,
    paymentToken: Option<string>,
    description: Option<string>,
    gateway: Option<string>)

  /** `RefundRequestDTO` */
  datatype RefundRequest = RefundRequest(
    paymentId: Option<string>,
    amount: Option<real>,
    reason: Option<string>)

  const Currencies: set<string> := {"BRL", "USD", "EUR"}
  const Gateways: set<string> := {"STRIPE", "PAGSEGURO"}

  /** A freshly deserialised request: the field initialisers give currency
      BRL and gateway STRIPE, everything else is null until the body sets it. */
  function NewRequest(): (r: PaymentRequest)
    ensures r.currency == Some("BRL") && r.gateway == Some("STRIPE")
  {
    PaymentRequest(None, None, None, Some("BRL"), None, None, None, Some("STRIPE"))
  }

  /** `@Pattern(regexp = "A|B|...")`: null passes; otherwise the whole string
      must be one of the alternatives, case-sensitively. */
  predicate MatchesOneOf(s: Option<string>, alternatives: set<string>) {
    s.None? || s.value in alternatives
  }

  /** The constraint annotations of `PaymentRequestDTO` (`@Email` aside). */
  predicate Valid(r: PaymentRequest) {
    && NotBlank(r.customerId)
    && NotBlank(r.customerEmail)
    && r.amount.Some? && r.amount.value >= 0.01
    && MatchesOneOf(r.currency, Currencies)
    && r.paymentMethod.Some?
    && NotBlank(r.paymentToken)
    && MatchesOneOf(r.gateway, Gateways)
  }

  /** The constraint annotations of `RefundRequestDTO`: no sign or upper bound
      on the amount. */
  predicate ValidRefund(r: RefundRequest) {
    NotBlank(r.paymentId) && r.amount.Some?
  }

  /** A request that supplies only the required fields is completed by the
      defaults, and is valid exactly when those fields meet their constraints. */
  lemma DefaultsCompleteRequest(customerId: string, email: string, amount: real, pm: PaymentMethod, token: string)
    ensures var r := NewRequest().(customerId := Some(customerId), customerEmail := Some(email),
                                   amount := Some(amount), paymentMethod := Some(pm),
                                   paymentToken := Some(token));
            && r.currency == Some("BRL") && r.gateway == Some("STRIPE")
            && (Valid(r) <==> NotBlank(Some(customerId)) && NotBlank(Some(email)) && amount >= 0.01 && NotBlank(Some(token)))
  {
  }

  /** The currency allow-list is a whole-string, case-sensitive match. */
  lemma CurrencyAllowList(r: PaymentRequest)
    requires Valid(r) && r.currency.Some?
    ensures r.currency.value == "BRL" || r.currency.value == "USD" || r.currency.value == "EUR"
    ensures Valid(r.(currency := Some("brl"))) == false
    ensures Valid(r.(currency := Some("BRL "))) == false
  {
    assert "brl" != "BRL" && "brl" != "USD" && "brl" != "EUR";
    assert "BRL " != "BRL" && "BRL " != "USD" && "BRL " != "EUR";
  }

  /** Both gateway names pass validation, PAGSEGURO included. */
  lemma GatewayAllowList(r: PaymentRequest)
    requires Valid(r)
    ensures r.gateway.Some? ==> r.gateway.value == "STRIPE" || r.gateway.value == "PAGSEGURO"
    ensures Valid(r.(gateway := Some("PAGSEGURO")))
  {
  }

  /** The amount bound is inclusive at 0.01, and a missing amount is
      rejected. */
  lemma AmountMinimum(r: PaymentRequest)
    requires Valid(r)
    ensures Valid(r.(amount := Some(0.01)))
    ensures !Valid(r.(amount := Some(0.0099)))
    ensures !Valid(r.(amount := Some(-5.0)))
    ensures !Valid(r.(amount := None))
  {
  }

  /** A customer id, e-mail or token made only of blanks is rejected, while
      the optional fields may be null. */
  lemma BlankAndOptionalFields(r: PaymentRequest, blank: string)
    requires Valid(r)
    requires forall i :: 0 <= i < |blank| ==> blank[i] <= ' '
    ensures !Valid(r.(customerId := Some(blank)))
    ensures !Valid(r.(customerEmail := Some(blank)))
    ensures !Valid(r.(paymentToken := Some(blank)))
    ensures !Valid(r.(paymentMethod := None))
    ensures Valid(r.(description := None))
    ensures Valid(r.(currency := None))
    ensures Valid(r.(gateway := None))
  {
  }

  /** A refund request needs a non-blank payment id and some amount; the
      amount may be any value, zero and negative included, and the reason is
      optional. */
  lemma RefundRequestConstraints(r: RefundRequest, a: real, blank: string)
    requires ValidRefund(r)
    requires forall i :: 0 <= i < |blank| ==> blank[i] <= ' '
    ensures ValidRefund(r.(amount := Some(a)))
    ensures ValidRefund(r.(reason := None))
    ensures !ValidRefund(r.(amount := None))
    ensures !ValidRefund(r.(paymentId := Some(blank)))
    ensures !ValidRefund(r.(paymentId := None))
  {
  }
}

=== FILE: service.dfy ===
/** `PaymentService`: the orchestration of gateway resolution, charging,
    lookups, refunds and statistics over the payment table. Every operation
    that writes takes the table and returns the table after the call; a
    failed call rolls back (`@Transactional`) and returns the table unchanged. */
module PaymentService {
  import opened Wrappers
  import opened Text
  import opened Time
  import opened Payments
  import opened PaymentRequests
  import StripeService
  import opened PaymentGatewayFactory
  import opened Store
  import opened Statistics
  import Money

  /** The table after a call, and what the call returned or threw. */
  datatype Reply<T> = Reply(store: Store, result: Result<T, Error>)

  const RefundIdSuffix: string := "_refund"
  const RefundDescriptionPrefix: string := "Reembolso: "

  /** `getGatewayService`: only a name equal to STRIPE ignoring case selects
      the Stripe adapter; anything else, null included, is unsupported. */
  function GetGatewayService(gateway: Option<string>): (r: Result<Gateway, Error>)
    ensures r.Ok? <==> gateway.Some? && EqualsIgnoreCase("STRIPE", gateway.value)
    ensures r.Ok? ==> r.value == Stripe
    ensures r.Err? ==> r.error == UnsupportedGateway
  {
    if gateway.Some? && EqualsIgnoreCase("STRIPE", gateway.value) then Ok(Stripe)
    else Err(UnsupportedGateway)
  }

  /** A name selects Stripe exactly when it upper-cases to STRIPE, so
      PAGSEGURO, although an allowed request value, is refused; the factory's
      bean-name lookup agrees with this resolution on every name. */
  lemma GatewayServiceIsStripeOnly(name: string)
    ensures GetGatewayService(Some(name)).Ok? <==> ToUpper(name) == "STRIPE"
    ensures GetGatewayService(Some(name)).Ok? <==> GetGateway(SpringRegistry(), name).Ok?
    ensures GetGatewayService(Some("PAGSEGURO")) == Err(UnsupportedGateway)
    ensures GetGatewayService(None) == Err(UnsupportedGateway)
  {
    EqualsIgnoreCaseIffSameUpper("STRIPE", name);
    assert ToUpper("STRIPE") == "STRIPE";
    SpringRegistryResolvesOnlyStripe(name);
  }

  /** `processPayment`: resolve the gateway, let it charge, save its record.
      On success exactly one record is appended and returned: the gateway's
      record with the new id and the creation stamp, its status kept. */
  function ProcessPayment(st: Store, req: PaymentRequest, outcome: StripeService.ChargeOutcome, clock: Clock): (reply: Reply<Payment>)
    requires Wellformed(st) && Valid(req)
    ensures Wellformed(reply.store)
    ensures reply.result.Err? ==> reply.store == st
    ensures var charged := StripeService.ProcessPayment(req, outcome, clock);
      reply.result.Ok? <==>
        && GetGatewayService(req.gateway).Ok?
        && charged.Ok?
        && !PaymentIdTaken(st.records, charged.value.paymentId.value)
    ensures GetGatewayService(req.gateway).Err? ==> reply.result == Err(UnsupportedGateway)
    ensures GetGatewayService(req.gateway).Ok? && StripeService.ProcessPayment(req, outcome, clock).Err? ==>
      reply.result == Err(NullReference)
    ensures var charged := StripeService.ProcessPayment(req, outcome, clock);
      GetGatewayService(req.gateway).Ok? && charged.Ok? && PaymentIdTaken(st.records, charged.value.paymentId.value) ==>
        reply.result == Err(ConstraintViolation)
    ensures reply.result.Ok? ==>
      var charged := StripeService.ProcessPayment(req, outcome, clock);
      && charged.Ok?
      && reply.result.value == charged.value.(id := Some(st.nextId), createdAt := Some(Now(clock)))
      && reply.store == Store(st.records + [reply.result.value], st.nextId + 1)
    ensures reply.result.Ok? ==> reply.result.value.status == Some(Success) || reply.result.value.status == Some(Failed)
  {
    match GetGatewayService(req.gateway)
    case Err(e) => Reply(st, Err(e))
    case Ok(_) =>
      match StripeService.ProcessPayment(req, outcome, clock)
      case Err(e) => Reply(st, Err(e))
      case Ok(p) =>
        match Persist(st, p, Now(clock))
        case Err(e) => Reply(st, Err(e))
        case Ok((st', saved)) => Reply(st', Ok(saved))
  }

  /** A valid PAGSEGURO request is refused at gateway resolution and nothing
      is written. */
  lemma PagSeguroRequestRefused(st: Store, req: PaymentRequest, outcome: StripeService.ChargeOutcome, clock: Clock)
    requires Wellformed(st) && Valid(req) && req.gateway == Some("PAGSEGURO")
    ensures ProcessPayment(st, req, outcome, clock) == Reply(st, Err(UnsupportedGateway))
  {
    GatewayServiceIsStripeOnly("PAGSEGURO");
  }

  /** A provider exception during a charge is not an error for the caller: a
      FAILED record with a local "error_" id is saved, as long as that id is
      new to the table. */
  lemma ProviderErrorIsRecorded(st: Store, req: PaymentRequest, message: Option<string>, clock: Clock)
    requires Wellformed(st) && Valid(req) && req.currency.Some? && GetGatewayService(req.gateway).Ok?
    requires !PaymentIdTaken(st.records, StripeService.ErrorPaymentId(clock))
    ensures var reply := ProcessPayment(st, req, StripeService.ChargeError(message), clock);
      && reply.result.Ok?
      && reply.result.value.status == Some(Failed)
      && reply.result.value.paymentId == Some(StripeService.ErrorPaymentId(clock))
      && reply.result.value.amount == req.amount
  {
  }

  /** A successful charge adds one transaction; a SUCCESS record also adds
      one success and its amount, a FAILED record one failure. */
  lemma ProcessStatisticsEffect(st: Store, req: PaymentRequest, outcome: StripeService.ChargeOutcome, clock: Clock)
    requires Wellformed(st) && Valid(req)
    requires ProcessPayment(st, req, outcome, clock).result.Ok?
    ensures var before := GetPaymentStatistics(st);
      var after := GetPaymentStatistics(ProcessPayment(st, req, outcome, clock).store);
      var saved := ProcessPayment(st, req, outcome, clock).result.value;
      && after.totalTransactions == before.totalTransactions + 1
      && (outcome.Paid? ==> after.successfulPayments == before.successfulPayments + 1
                            && after.failedPayments == before.failedPayments
                            && after.totalAmount == before.totalAmount + req.amount.value)
      && (!outcome.Paid? ==> after.successfulPayments == before.successfulPayments
                             && after.failedPayments == before.failedPayments + 1
                             && after.totalAmount == before.totalAmount)
  {
    var reply := ProcessPayment(st, req, outcome, clock);
    var saved := reply.result.value;
    SuccessTotalAppend(st.records, saved);
    CountStatusAppend(st.records, saved, Success);
    CountStatusAppend(st.records, saved, Failed);
  }

  /** A charge of 100.00 BRL by credit card that the provider accepts is
      saved as SUCCESS under the provider's charge id, with the amount
      unchanged and 10000 cents charged. */
  lemma AcceptedChargeScenario(st: Store, clock: Clock)
    requires Wellformed(st) && !PaymentIdTaken(st.records, "ch_1")
    ensures var req := NewRequest().(customerId := Some("c1"), customerEmail := Some("a@b.c"),
                                     amount := Some(100.0), paymentMethod := Some(CreditCard),
                                     paymentToken := Some("tok_valid"));
      && Valid(req)
      && var reply := ProcessPayment(st, req, StripeService.Paid("ch_1", 0, "{}"), clock);
         && StripeService.ChargeParamsFor(req).Ok?
         && StripeService.ChargeParamsFor(req).value.amount == 10000
         && reply.result.Ok?
         && reply.result.value.status == Some(Success)
         && reply.result.value.paymentId == Some("ch_1")
         && reply.result.value.amount == Some(100.0)
  {
    var req := NewRequest().(customerId := Some("c1"), customerEmail := Some("a@b.c"),
                             amount := Some(100.0), paymentMethod := Some(CreditCard),
                             paymentToken := Some("tok_valid"));
    assert "c1"[0] > ' ' && "a@b.c"[0] > ' ' && "tok_valid"[0] > ' ';
    assert Valid(req);
    Money.ConvertToCentsExact(100.0, 10000);
  }

  /** `getPaymentById`: the record with that id; not found otherwise. */
  function GetPaymentById(st: Store, id: int): (r: Result<Payment, Error>)
    ensures r.Ok? <==> exists i :: 0 <= i < |st.records| && st.records[i].id.Some? && st.records[i].id.value == id
    ensures r.Ok? ==> r.value in st.records && r.value.id.Some? && r.value.id.value == id
    ensures r.Err? ==> r.error == NotFound
  {
    if id < 0 then Err(NotFound)
    else match FindById(st.records, id)
      case Some(p) => Ok(p)
      case None => Err(NotFound)
  }

  /** `getPaymentByPaymentId`: the record with that `paymentId` (the only
      one, the column being unique); not found otherwise. */
  function GetPaymentByPaymentId(st: Store, paymentId: string): (r: Result<Payment, Error>)
    requires Wellformed(st)
    ensures r.Ok? <==> PaymentIdTaken(st.records, paymentId)
    ensures r.Ok? ==> r.value in st.records && r.value.paymentId == Some(paymentId)
    ensures r.Ok? ==> forall i :: 0 <= i < |st.records| && st.records[i].paymentId == Some(paymentId) ==> st.records[i] == r.value
    ensures r.Err? ==> r.error == NotFound
  {
    match IndexOfPaymentId(st.records, paymentId)
    case Some(i) => Ok(st.records[i])
    case None => Err(NotFound)
  }

  /** `getPaymentsByCustomer`: exactly the records of that customer. */
  function GetPaymentsByCustomer(st: Store, customerId: string): (r: seq<Payment>)
    ensures forall p :: p in r <==> p in st.records && p.customerId == Some(customerId)
  {
    FilterByCustomer(st.records, customerId)
  }

  /** `getPaymentsByStatus`: the status text is upper-cased and must then name
      a status exactly; the answer is exactly the records in that status. */
  function GetPaymentsByStatus(st: Store, status: string): (r: Result<seq<Payment>, Error>)
    ensures r.Ok? <==> exists s: PaymentStatus :: StatusName(s) == ToUpper(status)
    ensures r.Ok? ==> forall p :: p in r.value <==> p in st.records && p.status == ParseStatus(ToUpper(status))
    ensures r.Err? ==> r.error == InvalidArgument
  {
    match ParseStatus(ToUpper(status))
    case Some(s) => Ok(FilterByStatus(st.records, s))
    case None => Err(InvalidArgument)
  }

  /** Each record of the customer occurs in the customer query's answer as
      often as in the table, and no other record occurs. */
  lemma CustomerQueryMultiplicity(st: Store, customerId: string, p: Payment)
    ensures multiset(GetPaymentsByCustomer(st, customerId))[p]
         == if p.customerId == Some(customerId) then multiset(st.records)[p] else 0
  {
    WhereMultiplicity(st.records, ByCustomer(customerId), p);
  }

  /** Each record in the named status occurs in the status query's answer as
      often as in the table, and no other record occurs. */
  lemma StatusQueryMultiplicity(st: Store, text: string, p: Payment)
    requires GetPaymentsByStatus(st, text).Ok?
    ensures multiset(GetPaymentsByStatus(st, text).value)[p]
         == if p.status == ParseStatus(ToUpper(text)) then multiset(st.records)[p] else 0
  {
    WhereMultiplicity(st.records, ByStatus(ParseStatus(ToUpper(text)).value), p);
  }

  /** The status query accepts any letter casing of a status name. */
  lemma StatusQueryIgnoresCase(st: Store, text: string, s: PaymentStatus)
    requires EqualsIgnoreCase(text, StatusName(s))
    ensures GetPaymentsByStatus(st, text) == Ok(FilterByStatus(st.records, s))
  {
    EqualsIgnoreCaseIffSameUpper(text, StatusName(s));
    ToUpperOfUpper(StatusName(s));
    ParseStatusName(s);
  }

  /** The sizes of the SUCCESS and FAILED answers of the status query are the
      counts the statistics report. */
  lemma StatusQueryMatchesStatistics(st: Store)
    requires Wellformed(st)
    ensures GetPaymentsByStatus(st, "SUCCESS").Ok?
      && |GetPaymentsByStatus(st, "SUCCESS").value| == GetPaymentStatistics(st).successfulPayments
    ensures GetPaymentsByStatus(st, "FAILED").Ok?
      && |GetPaymentsByStatus(st, "FAILED").value| == GetPaymentStatistics(st).failedPayments
  {
    StatusQueryIgnoresCase(st, "SUCCESS", Success);
    StatusQueryIgnoresCase(st, "FAILED", Failed);
  }

  /** The ledger record of a refund: the gateway's charge id with "_refund",
      the negated requested amount, status REFUNDED, a "Reembolso: " note, and
      the original's customer, currency, method and gateway. */
  function RefundRecord(original: Payment, receipt: Payment, req: RefundRequest): Payment
    requires req.amount.Some?
  {
    NewPayment().(
      paymentId := Some(OrNull(receipt.paymentId) + RefundIdSuffix),
      customerId := original.customerId,
      customerEmail := original.customerEmail,
      amount := Some(-req.amount.value),
      currency := original.currency,
      paymentMethod := original.paymentMethod,
      gateway := original.gateway,
      description := Some(RefundDescriptionPrefix + req.reason.GetOr("")),
      status := Some(Refunded),
      gatewayResponse := receipt.gatewayResponse)
  }

  /** `refundPayment`. It fails, writing nothing, when no record has the
      `paymentId`, when that record is not SUCCESS, when its gateway does not
      resolve, when the amount is too large for the `Double` the gateway
      takes, when the gateway refund returns null, or when the refund
      record's id is already taken. Otherwise the original becomes REFUNDED
      (stamped as updated, nothing else changed) and one refund record is
      appended and returned. `outcome` is the provider's answer to the
      refund request `StripeService.RefundParamsFor(paymentId, reason)`. */
  function RefundPayment(st: Store, req: RefundRequest, outcome: StripeService.RefundOutcome, clock: Clock): (reply: Reply<Payment>)
    requires Wellformed(st) && ValidRefund(req)
    ensures Wellformed(reply.store)
    ensures reply.result.Err? ==> reply.store == st
    ensures !PaymentIdTaken(st.records, req.paymentId.value) ==> reply.result == Err(NotFound)
    ensures forall i :: 0 <= i < |st.records| && st.records[i].paymentId == req.paymentId && st.records[i].status != Some(Success)
              ==> reply.result == Err(InvalidState)
    ensures PaymentIdTaken(st.records, req.paymentId.value) ==>
      var original := st.records[IndexOfPaymentId(st.records, req.paymentId.value).value];
      original.status == Some(Success) && GetGatewayService(original.gateway).Err? ==> reply.result == Err(UnsupportedGateway)
    ensures reply.result.Ok? <==>
      && PaymentIdTaken(st.records, req.paymentId.value)
      && var original := st.records[IndexOfPaymentId(st.records, req.paymentId.value).value];
         && original.status == Some(Success)
         && GetGatewayService(original.gateway).Ok?
         && !Money.RoundsToInfinity(req.amount.value)
         && outcome.RefundCreated?
         && !PaymentIdTaken(st.records, outcome.charge + RefundIdSuffix)
    ensures Money.RoundsToInfinity(req.amount.value) && PaymentIdTaken(st.records, req.paymentId.value) ==>
      var original := st.records[IndexOfPaymentId(st.records, req.paymentId.value).value];
      original.status == Some(Success) && GetGatewayService(original.gateway).Ok? ==> reply.result == Err(InvalidNumber)
    ensures PaymentIdTaken(st.records, req.paymentId.value) && !Money.RoundsToInfinity(req.amount.value) ==>
      var original := st.records[IndexOfPaymentId(st.records, req.paymentId.value).value];
      original.status == Some(Success) && GetGatewayService(original.gateway).Ok? ==>
        && (outcome.RefundError? ==> reply.result == Err(GatewayFailure))
        && (outcome.RefundCreated? && PaymentIdTaken(st.records, outcome.charge + RefundIdSuffix) ==>
              reply.result == Err(ConstraintViolation))
    ensures reply.result.Ok? ==>
      && PaymentIdTaken(st.records, req.paymentId.value)
      && outcome.RefundCreated?
      && var i := IndexOfPaymentId(st.records, req.paymentId.value).value;
         var original := st.records[i];
         var now := Now(clock);
         var refund := reply.result.value;
         && reply.store == Store(st.records[i := original.(status := Some(Refunded), updatedAt := Some(now))] + [refund], st.nextId + 1)
         && refund.id == Some(st.nextId)
         && refund.paymentId == Some(outcome.charge + RefundIdSuffix)
         && refund.amount == Some(-req.amount.value)
         && refund.status == Some(Refunded)
         && refund.description == Some(RefundDescriptionPrefix + req.reason.GetOr(""))
         && refund.customerId == original.customerId
         && refund.customerEmail == original.customerEmail
         && refund.currency == original.currency
         && refund.paymentMethod == original.paymentMethod
         && refund.gateway == original.gateway
         && refund.gatewayResponse == Some(outcome.json)
         && refund.createdAt == Some(now)
         && refund.updatedAt.None?
         && refund.processedAt.None?
  {
    var paymentId := req.paymentId.value;
    match IndexOfPaymentId(st.records, paymentId)
    case None => Reply(st, Err(NotFound))
    case Some(i) =>
      IndexOfUniquePaymentId(st, i);
      var original := st.records[i];
      if original.status != Some(Success) then Reply(st, Err(InvalidState))
      else match GetGatewayService(original.gateway)
        case Err(e) => Reply(st, Err(e))
        case Ok(_) =>
          match StripeService.RefundPayment(req.amount.value, outcome)
          case Err(e) => Reply(st, Err(e))
          case Ok(None) => Reply(st, Err(GatewayFailure))
          case Ok(Some(receipt)) =>
            var now := Now(clock);
            var staged := UpdateStatus(st, i, Refunded, now);
            match Persist(staged, RefundRecord(original, receipt, req), now)
            case Err(e) => Reply(st, Err(e))
            case Ok((st', saved)) => Reply(st', Ok(saved))
  }

  /** After a successful refund the original is REFUNDED, so a second refund
      of the same payment always fails with an invalid state. */
  lemma SecondRefundFails(st: Store, req: RefundRequest, o1: StripeService.RefundOutcome, c1: Clock,
                          again: RefundRequest, o2: StripeService.RefundOutcome, c2: Clock)
    requires Wellformed(st) && ValidRefund(req) && ValidRefund(again) && again.paymentId == req.paymentId
    requires RefundPayment(st, req, o1, c1).result.Ok?
    ensures var st' := RefundPayment(st, req, o1, c1).store;
      RefundPayment(st', again, o2, c2) == Reply(st', Err(InvalidState))
  {
    var st' := RefundPayment(st, req, o1, c1).store;
    var i := IndexOfPaymentId(st.records, req.paymentId.value).value;
    assert st'.records[i].paymentId == req.paymentId;
    assert st'.records[i].status == Some(Refunded);
  }

  /** A successful refund moves the original's amount out of the SUCCESS
      total and one record out of the SUCCESS count, leaves the FAILED count
      alone, and adds one transaction. */
  lemma RefundStatisticsEffect(st: Store, req: RefundRequest, outcome: StripeService.RefundOutcome, clock: Clock)
    requires Wellformed(st) && ValidRefund(req)
    requires RefundPayment(st, req, outcome, clock).result.Ok?
    ensures var before := GetPaymentStatistics(st);
      var after := GetPaymentStatistics(RefundPayment(st, req, outcome, clock).store);
      var original := st.records[IndexOfPaymentId(st.records, req.paymentId.value).value];
      && after.successfulPayments == before.successfulPayments - 1
      && after.failedPayments == before.failedPayments
      && after.totalTransactions == before.totalTransactions + 1
      && after.totalAmount == before.totalAmount - original.amount.value
  {
    var reply := RefundPayment(st, req, outcome, clock);
    var i := IndexOfPaymentId(st.records, req.paymentId.value).value;
    var original := st.records[i];
    var refund := reply.result.value;
    RefundedRecordEffect(st, i, Now(clock), refund, reply.store);
  }
}

=== FILE: statistics.dfy ===
/** `getPaymentStatistics`: totals over every record of the table. */
module Statistics {
  import opened Wrappers
  import opened Payments
  import opened Time
  import opened Store

  datatype Stats = Stats(totalAmount: real, successfulPayments: nat, failedPayments: nat, totalTransactions: nat)

  predicate AmountsPresent(records: seq<Payment>) {
    forall i :: 0 <= i < |records| ==> records[i].amount.Some?
  }

  /** What a record adds to the total amount: its amount when SUCCESS. */
  function Contribution(p: Payment): real
    requires p.amount.Some?
  {
    if p.status == Some(Success) then p.amount.value else 0.0
  }

  /** Sum of the amounts of the SUCCESS records. */
  function SuccessTotal(records: seq<Payment>): real
    requires AmountsPresent(records)
  {
    if |records| == 0 then 0.0
    else SuccessTotal(records[..|records| - 1]) + Contribution(records[|records| - 1])
  }

  /** Number of records with the given status. */
  function CountStatus(records: seq<Payment>, s: PaymentStatus): nat {
    if |records| == 0 then 0
    else CountStatus(records[..|records| - 1], s) + (if records[|records| - 1].status == Some(s) then 1 else 0)
  }

  /** Sum of the amounts of all the given records. */
  function SumAmounts(records: seq<Payment>): real
    requires AmountsPresent(records)
  {
    if |records| == 0 then 0.0
    else SumAmounts(records[..|records| - 1]) + records[|records| - 1].amount.value
  }

  /** The count of a status is the size of the status query's answer. */
  lemma {:induction false} CountStatusIsFilterLength(records: seq<Payment>, s: PaymentStatus)
    ensures CountStatus(records, s) == |FilterByStatus(records, s)|
  {
    if |records| > 0 {
      CountStatusIsFilterLength(records[..|records| - 1], s);
    }
  }

  /** The success total is the sum over the SUCCESS query's answer. */
  lemma {:induction false} SuccessTotalIsSumOfFilter(records: seq<Payment>)
    requires AmountsPresent(records)
    ensures AmountsPresent(FilterByStatus(records, Success))
    ensures SuccessTotal(records) == SumAmounts(FilterByStatus(records, Success))
  {
    var f := FilterByStatus(records, Success);
    assert forall i :: 0 <= i < |f| ==> f[i] in records;
    if |records| > 0 {
      var init := records[..|records| - 1];
      var last := records[|records| - 1];
      SuccessTotalIsSumOfFilter(init);
      var g := FilterByStatus(init, Success);
      if last.status == Some(Success) {
        assert f == g + [last];
        assert (g + [last])[..|g|] == g;
      }
    }
  }

  /** A record in two different states is counted at most once. */
  lemma {:induction false} CountsBounded(records: seq<Payment>, a: PaymentStatus, b: PaymentStatus)
    requires a != b
    ensures CountStatus(records, a) + CountStatus(records, b) <= |records|
  {
    if |records| > 0 {
      CountsBounded(records[..|records| - 1], a, b);
    }
  }

  lemma SuccessTotalAppend(records: seq<Payment>, p: Payment)
    requires AmountsPresent(records) && p.amount.Some?
    ensures AmountsPresent(records + [p])
    ensures SuccessTotal(records + [p]) == SuccessTotal(records) + Contribution(p)
  {
    assert (records + [p])[..|records|] == records;
  }

  lemma CountStatusAppend(records: seq<Payment>, p: Payment, s: PaymentStatus)
    ensures CountStatus(records + [p], s) == CountStatus(records, s) + (if p.status == Some(s) then 1 else 0)
  {
    assert (records + [p])[..|records|] == records;
  }

  /** Replacing one record changes the total by the difference of the two
      contributions. */
  lemma {:induction false} SuccessTotalUpdate(records: seq<Payment>, i: nat, p: Payment)
    requires AmountsPresent(records) && i < |records| && p.amount.Some?
    ensures AmountsPresent(records[i := p])
    ensures SuccessTotal(records[i := p]) == SuccessTotal(records) - Contribution(records[i]) + Contribution(p)
  {
    var n := |records|;
    if i < n - 1 {
      SuccessTotalUpdate(records[..n - 1], i, p);
      assert records[i := p][..n - 1] == records[..n - 1][i := p];
    } else {
      assert records[i := p][..n - 1] == records[..n - 1];
    }
  }

  /** Replacing one record changes each status count by the difference of
      the two records' statuses. */
  lemma {:induction false} CountStatusUpdate(records: seq<Payment>, i: nat, p: Payment, s: PaymentStatus)
    requires i < |records|
    ensures CountStatus(records[i := p], s)
         == CountStatus(records, s) - (if records[i].status == Some(s) then 1 else 0) + (if p.status == Some(s) then 1 else 0)
  {
    var n := |records|;
    if i < n - 1 {
      CountStatusUpdate(records[..n - 1], i, p, s);
      assert records[i := p][..n - 1] == records[..n - 1][i := p];
    } else {
      assert records[i := p][..n - 1] == records[..n - 1];
    }
  }

  /** The table change a refund makes, seen by the statistics: a SUCCESS
      record marked REFUNDED in place and a REFUNDED record appended take one
      record and its amount out of the SUCCESS figures, leave the FAILED count
      alone, and add one transaction. */
  lemma RefundedRecordEffect(st: Store, i: nat, now: DateTime, refund: Payment, st': Store)
    requires Wellformed(st) && Wellformed(st') && i < |st.records|
    requires st.records[i].status == Some(Success) && refund.status == Some(Refunded)
    requires st'.records == UpdateStatus(st, i, Refunded, now).records + [refund]
    ensures var before := GetPaymentStatistics(st);
      var after := GetPaymentStatistics(st');
      && after.successfulPayments == before.successfulPayments - 1
      && after.failedPayments == before.failedPayments
      && after.totalTransactions == before.totalTransactions + 1
      && after.totalAmount == before.totalAmount - st.records[i].amount.value
  {
    var updated := st.records[i].(status := Some(Refunded), updatedAt := Some(now));
    var records := st.records[i := updated];
    SuccessTotalUpdate(st.records, i, updated);
    assert st'.records[|records|] == refund;
    SuccessTotalAppend(records, refund);
    CountStatusUpdate(st.records, i, updated, Success);
    CountStatusAppend(records, refund, Success);
    CountStatusUpdate(st.records, i, updated, Failed);
    CountStatusAppend(records, refund, Failed);
  }

  /** `getPaymentStatistics`: the SUCCESS total, the SUCCESS and FAILED
      counts (the sizes of those status queries' answers, so together never
      more than the table) and the table size. The table is only read. */
  function GetPaymentStatistics(st: Store): (r: Stats)
    requires Wellformed(st)
    ensures r.totalTransactions == |st.records|
    ensures r.successfulPayments == |FilterByStatus(st.records, Success)|
    ensures r.failedPayments == |FilterByStatus(st.records, Failed)|
    ensures r.successfulPayments + r.failedPayments <= r.totalTransactions
    ensures AmountsPresent(FilterByStatus(st.records, Success))
    ensures r.totalAmount == SumAmounts(FilterByStatus(st.records, Success))
  {
    CountStatusIsFilterLength(st.records, Success);
    CountStatusIsFilterLength(st.records, Failed);
    CountsBounded(st.records, Success, Failed);
    SuccessTotalIsSumOfFilter(st.records);
    Stats(SuccessTotal(st.records), CountStatus(st.records, Success), CountStatus(st.records, Failed), |st.records|)
  }

  /** The summing stream pass of `getPaymentStatistics`, as a loop. */
  method SumSuccessful(records: seq<Payment>) returns (total: real)
    requires AmountsPresent(records)
    ensures total == SuccessTotal(records)
  {
    total := 0.0;
    var k := 0;
    while k < |records|
      invariant 0 <= k <= |records|
      invariant total == SuccessTotal(records[..k])
    {
      assert records[..k + 1][..k] == records[..k];
      if records[k].status == Some(Success) {
        total := total + records[k].amount.value;
      }
      k := k + 1;
    }
    assert records[..|records|] == records;
  }

  /** A counting stream pass of `getPaymentStatistics`, as a loop. */
  method CountWithStatus(records: seq<Payment>, s: PaymentStatus) returns (n: nat)
    ensures n == CountStatus(records, s)
  {
    n := 0;
    var k := 0;
    while k < |records|
      invariant 0 <= k <= |records|
      invariant n == CountStatus(records[..k], s)
    {
      assert records[..k + 1][..k] == records[..k];
      if records[k].status == Some(s) {
        n := n + 1;
      }
      k := k + 1;
    }
    assert records[..|records|] == records;
  }

  /** The three stream passes of `getPaymentStatistics`, written as loops:
      they compute the same statistics. */
  method ComputeStatistics(st: Store) returns (r: Stats)
    requires Wellformed(st)
    ensures r == GetPaymentStatistics(st)
  {
    var total := SumSuccessful(st.records);
    var successful := CountWithStatus(st.records, Success);
    var failed := CountWithStatus(st.records, Failed);
    r := Stats(total, successful, failed, |st.records|);
  }
}

=== FILE: store.dfy ===
/** The payment table behind `PaymentRepository`: records in insertion order
    and the next identity value. */
module Store {
  import opened Wrappers
  import opened Time
  import opened Payments

  datatype Store = Store(records: seq<Payment>, nextId: nat)

  /** A saved record has an id below the next one and every NOT NULL column set. */
  predicate Stored(p: Payment, nextId: nat) {
    p.id.Some? && p.id.value < nextId && Persistable(p)
  }

  /** What the table's constraints guarantee: every record saved, ids
      distinct, and `paymentId` unique. */
  predicate Wellformed(st: Store) {
    && (forall i :: 0 <= i < |st.records| ==> Stored(st.records[i], st.nextId))
    && (forall i, j :: 0 <= i < j < |st.records| ==> st.records[i].id != st.records[j].id)
    && (forall i, j :: 0 <= i < j < |st.records| ==> st.records[i].paymentId != st.records[j].paymentId)
  }

  predicate PaymentIdTaken(records: seq<Payment>, pid: string) {
    exists i :: 0 <= i < |records| && records[i].paymentId == Some(pid)
  }

  /** `save` of a new entity: `onCreate` runs, the next id is assigned, and
      the insert is refused when a NOT NULL column is null or the `paymentId`
      is already taken. An accepted record is appended and the table stays
      well formed. */
  function Persist(st: Store, p: Payment, now: DateTime): (r: Result<(Store, Payment), Error>)
    requires Wellformed(st)
    ensures r.Ok? <==> Persistable(OnCreate(p, now)) && !PaymentIdTaken(st.records, p.paymentId.value)
    ensures r.Err? ==> r.error == ConstraintViolation
    ensures r.Ok? ==>
      && r.value.1 == OnCreate(p, now).(id := Some(st.nextId))
      && r.value.0 == Store(st.records + [r.value.1], st.nextId + 1)
      && Wellformed(r.value.0)
  {
    var saved := OnCreate(p, now).(id := Some(st.nextId));
    if !Persistable(saved) || PaymentIdTaken(st.records, saved.paymentId.value) then Err(ConstraintViolation)
    else
      var st' := Store(st.records + [saved], st.nextId + 1);
      assert forall i :: 0 <= i < |st.records| ==> st'.records[i] == st.records[i];
      Ok((st', saved))
  }

  /** `save` of a stored record whose status was changed: `onUpdate` runs and
      the record is written back in place. Ids, `paymentId`s and every other
      record are kept, so the table stays well formed. */
  function UpdateStatus(st: Store, i: nat, status: PaymentStatus, now: DateTime): (st': Store)
    requires Wellformed(st) && i < |st.records|
    ensures st' == Store(st.records[i := st.records[i].(status := Some(status), updatedAt := Some(now))], st.nextId)
    ensures Wellformed(st')
    ensures forall pid :: PaymentIdTaken(st'.records, pid) <==> PaymentIdTaken(st.records, pid)
  {
    var st' := Store(st.records[i := OnUpdate(st.records[i].(status := Some(status)), now)], st.nextId);
    assert forall j :: 0 <= j < |st.records| ==>
      st'.records[j].id == st.records[j].id && st'.records[j].paymentId == st.records[j].paymentId;
    st'
  }

  /** `findById`: a record with that id, if any. */
  function FindById(records: seq<Payment>, id: nat): (r: Option<Payment>)
    ensures r.Some? <==> exists i :: 0 <= i < |records| && records[i].id == Some(id)
    ensures r.Some? ==> r.value in records && r.value.id == Some(id)
  {
    if |records| == 0 then None
    else if records[0].id == Some(id) then Some(records[0])
    else
      var r := FindById(records[1..], id);
      assert forall i :: 0 < i < |records| ==> records[i] == records[1..][i - 1];
      r
  }

  /** The position of the first record with that `paymentId`, if any. */
  function IndexOfPaymentId(records: seq<Payment>, pid: string): (r: Option<nat>)
    ensures r.Some? ==> r.value < |records| && records[r.value].paymentId == Some(pid)
    ensures r.None? <==> !PaymentIdTaken(records, pid)
    ensures r.Some? ==> forall j :: 0 <= j < r.value ==> records[j].paymentId != Some(pid)
  {
    if |records| == 0 then None
    else if records[0].paymentId == Some(pid) then Some(0)
    else match IndexOfPaymentId(records[1..], pid)
      case Some(k) => Some(k + 1)
      case None =>
        assert forall i :: 0 < i < |records| ==> records[i] == records[1..][i - 1];
        None
  }

  /** In a well-formed table the lookup finds the one record with that id. */
  lemma IndexOfUniquePaymentId(st: Store, i: nat)
    requires Wellformed(st) && i < |st.records| && st.records[i].paymentId.Some?
    ensures IndexOfPaymentId(st.records, st.records[i].paymentId.value) == Some(i)
  {
  }

  /** The condition of a query method such as `findByStatus`, which the
      repository derives from the method's name. */
  datatype Criterion = ByCustomer(customerId: string) | ByStatus(status: PaymentStatus)

  predicate Accepts(c: Criterion, p: Payment) {
    match c
    case ByCustomer(customerId) => p.customerId == Some(customerId)
    case ByStatus(status) => p.status == Some(status)
  }

  /** The records the criterion accepts, in table order. */
  function Where(records: seq<Payment>, c: Criterion): (r: seq<Payment>)
    ensures |r| <= |records|
    ensures forall p :: p in r <==> p in records && Accepts(c, p)
  {
    if |records| == 0 then []
    else
      var rest := Where(records[..|records| - 1], c);
      var last := records[|records| - 1];
      assert records == records[..|records| - 1] + [last];
      if Accepts(c, last) then rest + [last] else rest
  }

  /** Each accepted record occurs in the answer exactly as often as in the
      table, and nothing else occurs. */
  lemma {:induction false} WhereMultiplicity(records: seq<Payment>, c: Criterion, p: Payment)
    ensures multiset(Where(records, c))[p] == if Accepts(c, p) then multiset(records)[p] else 0
  {
    if |records| > 0 {
      var init := records[..|records| - 1];
      var last := records[|records| - 1];
      WhereMultiplicity(init, c, p);
      assert records == init + [last];
    }
  }

  /** `findByCustomerId`: the records of that customer. */
  function FilterByCustomer(records: seq<Payment>, customerId: string): (r: seq<Payment>)
    ensures forall p :: p in r <==> p in records && p.customerId == Some(customerId)
  {
    Where(records, ByCustomer(customerId))
  }

  /** `findByStatus`: the records with that status. */
  function FilterByStatus(records: seq<Payment>, status: PaymentStatus): (r: seq<Payment>)
    ensures forall p :: p in r <==> p in records && p.status == Some(status)
  {
    Where(records, ByStatus(status))
  }
}

=== FILE: stripe.dfy ===
/** The Stripe adapter: maps a request and what the provider answered to a
    `Payment`. Provider calls (`Charge.create`, `Charge.retrieve`,
    `Refund.create`) are not modelled; their answers are arguments. */
module StripeService {
  import opened Wrappers
  import opened Text
  import opened Time
  import opened Money
  import opened Payments
  import opened PaymentRequests

  /** The answer to `Charge.create`: a charge that was paid, one that was not,
      or a `StripeException` with its (possibly null) message. */
  datatype ChargeOutcome =
    | Paid(id: string, created: int, json: string)
    | Declined(id: string, json: string)
    | ChargeError(message: Option<string>)

  /** The answer to `Charge.retrieve`. */
  datatype RetrieveOutcome =
    | Retrieved(id: string, paid: bool, json: string)
    | RetrieveError(message: Option<string>)

  /** The answer to `Refund.create`: the refund names the charge it refunded. */
  datatype RefundOutcome =
    | RefundCreated(refundId: string, charge: string, json: string)
    | RefundError(message: Option<string>)

  /** `ChargeCreateParams` as built by `processPayment`. */
  datatype ChargeParams = ChargeParams(
    amount: int,
    currency: string,
    source: Option<string>,
    description: Option<string>,
    metadata: map<string, Option<string>>)

  datatype RefundReason = RequestedByCustomer

  /** `RefundCreateParams` as built by `refundPayment`, without its amount. */
  datatype RefundParams = RefundParams(charge: string, reason: RefundReason, metadata: map<string, string>)

  const GatewayName: string := "STRIPE"
  const ErrorIdPrefix: string := "error_"
  const ErrorResponsePrefix: string := "Stripe Error: "
  const TokenPrefix: string := "tok_"
  const DefaultRefundNote: string := "Solicitado pelo cliente"

  /** The charge request sent to the provider. Reading a null amount or a null
      currency throws before anything is sent. */
  function ChargeParamsFor(r: PaymentRequest): (p: Result<ChargeParams, Error>)
    ensures p.Ok? <==> r.amount.Some? && r.currency.Some?
    ensures p.Err? ==> p.error == NullReference
    ensures p.Ok? ==>
      && p.value.amount == ConvertToCents(r.amount.value)
      && p.value.currency == ToLower(r.currency.value)
      && p.value.source == r.paymentToken
      && p.value.description == r.description
      && p.value.metadata.Keys == {"customer_id", "customer_email"}
      && p.value.metadata["customer_id"] == r.customerId
      && p.value.metadata["customer_email"] == r.customerEmail
  {
    if r.amount.None? || r.currency.None? then Err(NullReference)
    else Ok(ChargeParams(
      ConvertToCents(r.amount.value),
      ToLower(r.currency.value),
      r.paymentToken,
      r.description,
      map["customer_id" := r.customerId, "customer_email" := r.customerEmail]))
  }

  /** The record carries the request's customer, amount, currency, method and
      description, under the STRIPE gateway, and has not been persisted. */
  predicate CopiesRequest(p: Payment, r: PaymentRequest)
    requires r.paymentMethod.Some?
  {
    && p.id.None?
    && p.customerId == r.customerId
    && p.customerEmail == r.customerEmail
    && p.amount == r.amount
    && p.currency == r.currency
    && p.paymentMethod == Some(MethodName(r.paymentMethod.value))
    && p.gateway == Some(GatewayName)
    && p.description == r.description
    && p.createdAt.None? && p.updatedAt.None?
  }

  function FromRequest(r: PaymentRequest, paymentId: string, status: PaymentStatus, response: string): (p: Payment)
    requires r.paymentMethod.Some?
    ensures CopiesRequest(p, r)
  {
    NewPayment().(
      paymentId := Some(paymentId),
      customerId := r.customerId,
      customerEmail := r.customerEmail,
      amount := r.amount,
      currency := r.currency,
      paymentMethod := Some(MethodName(r.paymentMethod.value)),
      gateway := Some(GatewayName),
      description := r.description,
      status := Some(status),
      gatewayResponse := Some(response))
  }

  /** The local id of a charge the provider rejected with an exception. */
  function ErrorPaymentId(clock: Clock): string {
    ErrorIdPrefix + IntToString(clock.epochMillis)
  }

  /** `processPayment`. A provider exception never escapes: it becomes a
      FAILED record. Only a null amount, currency or payment method (a
      `NullPointerException`) makes the call fail. */
  function ProcessPayment(r: PaymentRequest, outcome: ChargeOutcome, clock: Clock): (p: Result<Payment, Error>)
    ensures p.Ok? <==> r.amount.Some? && r.currency.Some? && r.paymentMethod.Some?
    ensures p.Err? ==> p.error == NullReference
    ensures p.Ok? ==> CopiesRequest(p.value, r)
    ensures p.Ok? ==> p.value.status == Some(Success) || p.value.status == Some(Failed)
    ensures p.Ok? && outcome.Paid? ==>
      && p.value.status == Some(Success)
      && p.value.paymentId == Some(outcome.id)
      && p.value.processedAt == Some(OfEpochSecond(outcome.created, clock))
      && p.value.gatewayResponse == Some(outcome.json)
    ensures p.Ok? && outcome.Declined? ==>
      && p.value.status == Some(Failed)
      && p.value.paymentId == Some(outcome.id)
      && p.value.processedAt.None?
      && p.value.gatewayResponse == Some(outcome.json)
    ensures p.Ok? && outcome.ChargeError? ==>
      && p.value.status == Some(Failed)
      && p.value.paymentId == Some(ErrorPaymentId(clock))
      && p.value.processedAt.None?
      && p.value.gatewayResponse == Some(ErrorResponsePrefix + OrNull(outcome.message))
  {
    match ChargeParamsFor(r)
    case Err(e) => Err(e)
    case Ok(_) =>
      if r.paymentMethod.None? then Err(NullReference)
      else match outcome
        case Paid(id, created, json) =>
          Ok(FromRequest(r, id, Success, json).(processedAt := Some(OfEpochSecond(created, clock))))
        case Declined(id, json) =>
          Ok(FromRequest(r, id, Failed, json))
        case ChargeError(message) =>
          Ok(FromRequest(r, ErrorPaymentId(clock), Failed, ErrorResponsePrefix + OrNull(message)))
  }

  /** A valid request with a currency is always turned into a record, whatever
      the provider answered, and that record is never PENDING. */
  lemma ProcessNeverThrowsForValidRequest(r: PaymentRequest, outcome: ChargeOutcome, clock: Clock)
    requires Valid(r) && r.currency.Some?
    ensures ProcessPayment(r, outcome, clock).Ok?
    ensures ProcessPayment(r, outcome, clock).value.status != Some(Pending)
    ensures ProcessPayment(r, outcome, clock).value.paymentId.Some?
  {
  }

  /** The local id of a rejected charge records the clock reading it was made
      from, sign included, so rejections at different milliseconds get
      different ids. */
  lemma ErrorIdsDistinct(c1: Clock, c2: Clock)
    ensures ErrorPaymentId(c1)[..|ErrorIdPrefix|] == ErrorIdPrefix
    ensures IsIntText(ErrorPaymentId(c1)[|ErrorIdPrefix|..])
    ensures IntValue(ErrorPaymentId(c1)[|ErrorIdPrefix|..]) == c1.epochMillis
    ensures c1.epochMillis != c2.epochMillis ==> ErrorPaymentId(c1) != ErrorPaymentId(c2)
  {
    assert ErrorPaymentId(c1)[|ErrorIdPrefix|..] == IntToString(c1.epochMillis);
    IntRoundTrip(c1.epochMillis);
    if c1.epochMillis != c2.epochMillis {
      IntToStringInjective(c1.epochMillis, c2.epochMillis);
      PrependInjective(ErrorIdPrefix, IntToString(c1.epochMillis), IntToString(c2.epochMillis));
    }
  }

  /** `getPaymentStatus`: SUCCESS exactly when the charge is paid, FAILED
      otherwise; null (here `None`) on a provider exception. */
  function GetPaymentStatus(outcome: RetrieveOutcome): (p: Option<Payment>)
    ensures p.Some? <==> outcome.Retrieved?
    ensures p.Some? ==>
      && p.value.paymentId == Some(outcome.id)
      && (p.value.status == Some(Success) <==> outcome.paid)
      && (p.value.status == Some(Failed) <==> !outcome.paid)
      && p.value.gatewayResponse == Some(outcome.json)
  {
    match outcome
    case Retrieved(id, paid, json) =>
      Some(NewPayment().(paymentId := Some(id), status := Some(if paid then Success else Failed),
                         gatewayResponse := Some(json)))
    case RetrieveError(_) => None
  }

  /** The refund request sent to the provider: the charge, the fixed reason
      code, and the caller's reason (or a default note) as metadata. */
  function RefundParamsFor(chargeId: string, reason: Option<string>): (p: RefundParams)
    ensures p.charge == chargeId && p.reason == RequestedByCustomer
    ensures p.metadata.Keys == {"reason"}
    ensures reason.Some? ==> p.metadata["reason"] == reason.value
    ensures reason.None? ==> p.metadata["reason"] == DefaultRefundNote
  {
    RefundParams(chargeId, RequestedByCustomer, map["reason" := reason.GetOr(DefaultRefundNote)])
  }

  /** `refundPayment` for the requested amount, received as a `Double`. An
      amount too large for a double arrives as an infinity, which
      `BigDecimal.valueOf` rejects with a `NumberFormatException` that the
      adapter does not catch. Otherwise: a REFUNDED stub naming the refunded
      charge, or null (here `None`) on a provider exception. */
  function RefundPayment(amount: real, outcome: RefundOutcome): (p: Result<Option<Payment>, Error>)
    ensures p.Err? <==> RoundsToInfinity(amount)
    ensures p.Err? ==> p.error == InvalidNumber
    ensures p.Ok? ==> (p.value.Some? <==> outcome.RefundCreated?)
    ensures p.Ok? && p.value.Some? ==>
      && p.value.value.status == Some(Refunded)
      && p.value.value.paymentId == Some(outcome.charge)
      && p.value.value.gatewayResponse == Some(outcome.json)
  {
    if RoundsToInfinity(amount) then Err(InvalidNumber)
    else match outcome
      case RefundCreated(_, charge, json) =>
        Ok(Some(NewPayment().(paymentId := Some(charge), status := Some(Refunded), gatewayResponse := Some(json))))
      case RefundError(_) => Ok(None)
  }

  /** `generatePaymentMethodToken`: a stub token built from the clock alone;
      the request is not consulted. */
  function GeneratePaymentMethodToken(r: PaymentRequest, clock: Clock): (token: string)
    ensures |token| > |TokenPrefix| && token[..|TokenPrefix|] == TokenPrefix
    ensures IsIntText(token[|TokenPrefix|..])
    ensures token[|TokenPrefix|] == '-' <==> clock.epochMillis < 0
  {
    TokenPrefix + IntToString(clock.epochMillis)
  }

  /** The token reads back as the clock reading it came from, sign included:
      tokens of different milliseconds differ, and the request plays no part. */
  lemma TokenEncodesClock(r1: PaymentRequest, r2: PaymentRequest, c1: Clock, c2: Clock)
    ensures IntValue(GeneratePaymentMethodToken(r1, c1)[|TokenPrefix|..]) == c1.epochMillis
    ensures c1 == c2 ==> GeneratePaymentMethodToken(r1, c1) == GeneratePaymentMethodToken(r2, c2)
    ensures c1.epochMillis != c2.epochMillis ==> GeneratePaymentMethodToken(r1, c1) != GeneratePaymentMethodToken(r2, c2)
  {
    assert GeneratePaymentMethodToken(r1, c1)[|TokenPrefix|..] == IntToString(c1.epochMillis);
    IntRoundTrip(c1.epochMillis);
    if c1.epochMillis != c2.epochMillis {
      IntToStringInjective(c1.epochMillis, c2.epochMillis);
      PrependInjective(TokenPrefix, IntToString(c1.epochMillis), IntToString(c2.epochMillis));
    }
  }

  /** `maskKey`: "***" for a null key or one shorter than 8 characters;
      otherwise the first four characters, "...", and the last four. */
  function MaskKey(key: Option<string>): (m: string)
    ensures key.None? || |key.value| < 8 ==> m == "***"
    ensures key.Some? && |key.value| >= 8 ==>
      && |m| == 11
      && m[..4] == key.value[..4]
      && m[4..7] == "..."
      && m[7..] == key.value[|key.value| - 4..]
  {
    if key.None? || |key.value| < 8 then "***"
    else key.value[..4] + "..." + key.value[|key.value| - 4..]
  }

  /** The mask depends only on the first and last four characters: keys that
      agree there (and are both long enough) look the same. */
  lemma MaskKeyHidesMiddle(k1: string, k2: string)
    requires |k1| >= 8 && |k2| >= 8
    requires k1[..4] == k2[..4] && k1[|k1| - 4..] == k2[|k2| - 4..]
    ensures MaskKey(Some(k1)) == MaskKey(Some(k2))
  {
  }
}

=== FILE: text.dfy ===
/** The few java.lang.String operations the services rely on. Case mapping
    covers ASCII letters only. */
module Text {
  import opened Wrappers

  function LowerChar(c: char): char {
    if 'A' <= c <= 'Z' then (c as int + 32) as char else c
  }

  function UpperChar(c: char): char {
    if 'a' <= c <= 'z' then (c as int - 32) as char else c
  }

  /** `String.toLowerCase()` */
  function ToLower(s: string): (r: string)
    ensures |r| == |s|
    ensures forall i :: 0 <= i < |s| ==> r[i] == LowerChar(s[i])
  {
    seq(|s|, i requires 0 <= i < |s| => LowerChar(s[i]))
  }

  /** `String.toUpperCase()` */
  function ToUpper(s: string): (r: string)
    ensures |r| == |s|
    ensures forall i :: 0 <= i < |s| ==> r[i] == UpperChar(s[i])
  {
    seq(|s|, i requires 0 <= i < |s| => UpperChar(s[i]))
  }

  /** Upper-casing leaves a string without lower-case letters as it is. */
  lemma ToUpperOfUpper(s: string)
    requires forall i :: 0 <= i < |s| ==> !('a' <= s[i] <= 'z')
    ensures ToUpper(s) == s
  {
  }

  /** The per-character test of `String.equalsIgnoreCase`: identical, or equal
      after upper-casing, or equal after upper- then lower-casing. */
  predicate CharsMatchIgnoringCase(a: char, b: char) {
    a == b || UpperChar(a) == UpperChar(b) || LowerChar(UpperChar(a)) == LowerChar(UpperChar(b))
  }

  /** `a.equalsIgnoreCase(b)` for a non-null `b`. */
  predicate EqualsIgnoreCase(a: string, b: string) {
    |a| == |b| && forall i :: 0 <= i < |a| ==> CharsMatchIgnoringCase(a[i], b[i])
  }

  /** Two strings are equal ignoring case exactly when their lower-case forms
      are equal. */
  lemma EqualsIgnoreCaseIffSameLower(a: string, b: string)
    ensures EqualsIgnoreCase(a, b) <==> ToLower(a) == ToLower(b)
  {
  }

  /** Two strings are equal ignoring case exactly when their upper-case forms
      are equal. */
  lemma EqualsIgnoreCaseIffSameUpper(a: string, b: string)
    ensures EqualsIgnoreCase(a, b) <==> ToUpper(a) == ToUpper(b)
  {
  }

  /** Java string concatenation renders a null reference as "null". */
  function OrNull(s: Option<string>): string {
    s.GetOr("null")
  }

  /** Bean Validation's `@NotBlank`: not null, and something other than the
      characters `String.trim()` removes (code points up to U+0020) remains. */
  predicate NotBlank(s: Option<string>) {
    s.Some? && exists i :: 0 <= i < |s.value| && s.value[i] > ' '
  }

  predicate IsDigit(c: char) {
    '0' <= c <= '9'
  }

  predicate AllDigits(s: string) {
    forall i :: 0 <= i < |s| ==> IsDigit(s[i])
  }

  function DigitChar(d: nat): (c: char)
    requires d < 10
    ensures IsDigit(c)
  {
    ('0' as int + d) as char
  }

  /** The value of a digit string read in base ten; the reading `Long.parseLong`
      gives a string of digits. */
  function DecimalValue(s: string): nat
    requires AllDigits(s)
  {
    if |s| == 0 then 0 else DecimalValue(s[..|s| - 1]) * 10 + (s[|s| - 1] as int - '0' as int)
  }

  /** `Long.toString(n)` for a non-negative `n`. */
  function NatToString(n: nat): (s: string)
    ensures |s| >= 1 && AllDigits(s)
    ensures n == 0 <==> s == "0"
  {
    if n < 10 then [DigitChar(n)] else NatToString(n / 10) + [DigitChar(n % 10)]
  }

  /** Reading back the decimal rendering of `n` gives `n`. */
  lemma {:induction false} DecimalRoundTrip(n: nat)
    ensures DecimalValue(NatToString(n)) == n
  {
    if n >= 10 {
      var s := NatToString(n / 10);
      DecimalRoundTrip(n / 10);
      assert (s + [DigitChar(n % 10)])[..|s|] == s;
    }
  }

  /** The text `Long.toString` gives for a signed number: digits, optionally
      after a minus sign. */
  predicate IsIntText(s: string) {
    || (|s| >= 1 && AllDigits(s))
    || (|s| >= 2 && s[0] == '-' && AllDigits(s[1..]))
  }

  /** `Long.parseLong` on such a text. */
  function IntValue(s: string): int
    requires IsIntText(s)
  {
    if AllDigits(s) then DecimalValue(s) else -(DecimalValue(s[1..]) as int)
  }

  /** `Long.toString(x)`: the digits of `|x|`, after a minus sign when `x` is
      negative. */
  function IntToString(x: int): (s: string)
    ensures IsIntText(s)
    ensures s[0] == '-' <==> x < 0
  {
    if x < 0 then "-" + NatToString(-x) else NatToString(x)
  }

  /** Reading back the rendering of `x` gives `x`, whatever its sign. */
  lemma IntRoundTrip(x: int)
    ensures IntValue(IntToString(x)) == x
  {
    if x < 0 {
      var s := IntToString(x);
      assert !AllDigits(s) by { assert !IsDigit(s[0]); }
      assert s[1..] == NatToString(-x);
      DecimalRoundTrip(-x);
    } else {
      DecimalRoundTrip(x);
    }
  }

  /** Distinct numbers have distinct renderings. */
  lemma IntToStringInjective(m: int, n: int)
    requires m != n
    ensures IntToString(m) != IntToString(n)
  {
    IntRoundTrip(m);
    IntRoundTrip(n);
  }

  /** Equal suffixes cancel: `a + t == b + t` only when `a == b`. */
  lemma AppendCancel(a: string, b: string, t: string)
    ensures a + t == b + t <==> a == b
  {
    if a + t == b + t {
      assert |a| == |b|;
      assert a == (a + t)[..|a|];
      assert b == (b + t)[..|b|];
    }
  }

  /** A prefix followed by different tails gives different strings. */
  lemma PrependInjective(p: string, a: string, b: string)
    ensures p + a == p + b <==> a == b
  {
    if p + a == p + b {
      assert a == (p + a)[|p|..];
      assert b == (p + b)[|p|..];
    }
  }
}

=== FILE: time.dfy ===
/** Clock readings. The services read the system clock (`System.currentTimeMillis`,
    `LocalDateTime.now`) and convert provider epoch seconds with the system time
    zone; all of that enters the model as a `Clock` argument. */
module Time {

  /** A `LocalDateTime`, as milliseconds on the local time line. */
  datatype DateTime = DateTime(localMillis: int)

  /** One reading of the system clock: milliseconds since the epoch (negative
      before it, as Java's signed `long` allows), and the offset of the system
      default zone at that moment. */
  datatype Clock = Clock(epochMillis: int, zoneOffsetMillis: int)

  /** `LocalDateTime.now()` */
  function Now(c: Clock): DateTime {
    DateTime(c.epochMillis + c.zoneOffsetMillis)
  }

  /** `LocalDateTime.ofInstant(Instant.ofEpochSecond(s), ZoneId.systemDefault())` */
  function OfEpochSecond(s: int, c: Clock): DateTime {
    DateTime(s * 1000 + c.zoneOffsetMillis)
  }
}

=== FILE: wrappers.dfy ===
/** Option stands for a Java reference that may be null; Result for a call
    that either returns a value or throws. */
module Wrappers {

  datatype Option<+T> = None | Some(value: T) {

    /** The value when present, otherwise `default`. */
    function GetOr(default: T): T {
      match this
      case Some(v) => v
      case None => default
    }
  }

  datatype Result<+R, +E> = Ok(value: R) | Err(error: E)
}
